=== FILE: README.md ===
# Discovery journey and content generator: a Dafny model

This project models three pieces of a small web application.

- **The journey progress store.** One `Progress` record is kept under a
  single storage key. It holds the current question id, the answers by
  question id, a completion flag and the narrative keys viewed so far.
  Every load and save checks it against a schema. A default record covers
  absent or broken storage. Three read-modify-write updates change it:
  record an answer, mark a narrative viewed, and complete the journey.
- **The journey controller.** The mount effect reads the store and decides
  what to show: the conclusion, the intro, the current question, or that
  question's narrative. Three event handlers then react to a question
  being answered, a narrative being viewed, and a reset. All of these are
  pure functions over the view state and the storage. The question
  registry is a parameter.
- **The content endpoint's pure parts.** These are the request guard
  (method and required fields), the extraction of a JSON candidate from
  the model's reply, and the line-based fallback parser. The fallback
  recovers hooks and a script from a reply that is not JSON.

Modules:

- `Wrappers`: `Option`.
- `ProgressStore`: the record, the schema, and storage as an explicit value.
  `None` is an absent key, `Some(Unparsable)` is text that is not JSON, and
  `Some(Parsed(rec))` is an object with possibly absent or mistyped fields.
- `Journey`: the view state, the mount effect, the handlers, and dispatch
  of an event sequence.
- `JourneyResume`: what "resume where it left off" means (`Consistent`).
  It proves that every event a card can publish keeps the journey
  consistent, and that remounting preserves what is shown once the intro
  branch is corrected (see Findings).
- `Text`: the JavaScript string operations the parser uses (`includes`,
  `trim`, `split`, the anchored character runs of its regular expressions).
- `Scanner`: the fallback's section-tracking loop over classified lines,
  with a reference definition ("each line's yield in the section of the
  nearest header above it") and the proof that the loop computes it.
- `GenerateContent`: the guard, the JSON candidate, line classification
  and the fallback itself.

## Model

| member | source | states |
|---|---|---|
| ProgressStore.Validate | src/modules/progress/api.js:6-11 | A stored object is accepted exactly when `currentQuestionId` is present and at least 1, `answers` is present, and `completed` and `viewedNarratives` are absent or well typed; an accepted record is valid (the record it yields is pinned by `ValidateDefaults`) |
| ProgressStore.ValidateDefaults | src/modules/progress/api.js:6-11 | For every object the schema accepts, the loaded record keeps the id and the answers, and each optional field takes its stored value or its own default: a missing `completed` loads as false and a missing `viewedNarratives` as the empty list (not `["intro"]`), whatever the other field holds |
| ProgressStore.EncodeRoundTrip | src/modules/progress/api.js:25-33 | A written record validates back to itself exactly when it is valid; an invalid one is rejected |
| ProgressStore.Load | src/modules/progress/api.js:42-57 | Loading never fails and always yields a valid record: the default for an absent key, unparsable text or a rejected object, otherwise the validated stored record |
| ProgressStore.Save | src/modules/progress/api.js:25-39 | A valid record is returned and a following load yields it; an invalid one returns nothing and leaves storage untouched |
| ProgressStore.Reset | src/modules/progress/api.js:60-64 | Storage is cleared, the result is `{1, {}, false, ["intro"]}`, and a following load returns that default |
| ProgressStore.UpdateAnswer | src/modules/progress/api.js:66-78 | The answer for `q` is set, the current question becomes `q + 1` (assigned, not incremented), every other answer, `completed` and the viewed list are kept, and a following load yields the result; a negative id fails validation and changes nothing |
| ProgressStore.ViewNarrative | src/modules/progress/api.js:80-90 | A key already viewed leaves record and storage untouched; a new key is appended at the end and everything else is kept |
| ProgressStore.ViewNarrativeKeepsDistinct | src/modules/progress/api.js:83-88 | Viewing never introduces a duplicate key and keeps the earlier keys as a prefix |
| ProgressStore.ViewNarrativeIdempotent | src/modules/progress/api.js:83 | Viewing the same narrative twice equals viewing it once, storage included |
| ProgressStore.CompleteJourney | src/modules/progress/api.js:92-100 | `completed` becomes true, no other field changes, and the save cannot fail in the model, where storage writes do not fail |
| Journey.FindQuestion | src/modules/journey/ui/Journey.jsx:35 | `None` exactly when no question has the id; otherwise the first question with that id |
| Journey.FindContiguous | src/modules/journey/ui/Journey.jsx:76 | In a registry with ids 1..n in order, question `id` sits at position `id - 1` when in range and is absent otherwise |
| Journey.ResumeAtQuestion | src/modules/journey/ui/Journey.jsx:33-44 | With the current question found, the question is shown exactly when its narrative is the last one viewed, otherwise that narrative; with none found the view is left as it was |
| Journey.Bootstrap | src/modules/journey/ui/Journey.jsx:18-46 | The mount effect as written: completion comes from the stored flag; past the last question the conclusion is shown; with exactly one narrative viewed the intro is shown; otherwise the decision above is made |
| Journey.ResumingBootstrap | src/modules/journey/ui/Journey.jsx:18-46 | The mount effect with the intro branch limited to question 1: past the last question the conclusion is shown; on question 1 with only the intro viewed the intro is shown; in every other case it defers to the current question and its narrative |
| Journey.Recover | src/modules/journey/ui/Journey.jsx:47-56 | The error path clears storage and shows the intro over the default record |
| Journey.OnQuestionAnswered | src/modules/journey/ui/Journey.jsx:61-86 | The answer is stored and the current question becomes `q + 1`; after the last question the journey is completed in storage and view and the conclusion is shown; otherwise completion is untouched and the next question's narrative is shown; the view keeps exactly the record the answer update returned (the loaded record with the answer and `q + 1`, so its `completed` is still the old flag) |
| Journey.OnNarrativeViewed | src/modules/journey/ui/Journey.jsx:88-105 | The key is recorded and nothing else in the record changes; the conclusion leaves the display as it was, any other key switches to the question view |
| Journey.OnReset | src/modules/journey/ui/Journey.jsx:107-119 | Whatever the prior state: storage cleared, default record, not completed, intro shown |
| JourneyResume.FreshStart | src/modules/journey/ui/Journey.jsx:18-31 | With nothing stored, both mount effects start consistently on the intro |
| JourneyResume.DueKeyIsNew | src/modules/journey/ui/Journey.jsx:37-43 | In a well-formed registry a question's narrative has not been viewed before it is due, so it is not the last key viewed |
| JourneyResume.ResetKeepsConsistent | src/modules/journey/ui/Journey.jsx:107-119 | A reset leads to a consistent state from any state |
| JourneyResume.NarrativeKeepsConsistent | src/modules/journey/ui/Journey.jsx:88-105 | Viewing the narrative on screen keeps the journey consistent and the current question unchanged |
| JourneyResume.AnswerKeepsConsistent | src/modules/journey/ui/Journey.jsx:61-86 | Answering the question on screen keeps the journey consistent and moves the current question up by one |
| JourneyResume.DispatchKeepsConsistent | src/modules/journey/ui/Journey.jsx:61-119 | Every event a card can publish keeps the journey consistent; an answer raises the current question by exactly one and a narrative view leaves it |
| JourneyResume.AnswerStep | src/modules/journey/ui/Journey.jsx:64-73 | One answer changes the stored record by setting the answer, assigning `q + 1` and completing the journey exactly past the last question |
| JourneyResume.AnsweringInOrder | src/modules/journey/ui/Journey.jsx:64-73 | Answering questions 1..k in order leaves the current question at k + 1 with every answer recorded; the journey is completed exactly when k reaches the registry's length or it already was; the viewed list is untouched |
| JourneyResume.ResumeMatchesLive | src/modules/journey/ui/Journey.jsx:18-46 | Remounting a consistent journey with the corrected mount effect is consistent and shows what the live view showed; the one exception is question 1, where the intro is shown again |
| JourneyResume.AsWrittenResumeSkipsNarrative | src/modules/journey/ui/Journey.jsx:28-31 | The mount effect as written, with question 2's narrative due, shows the intro; viewing it puts question 2 on screen with that narrative never recorded |
| JourneyResume.AsWrittenResumeWitness | src/modules/journey/ui/Journey.jsx:28-31 | A two-question journey reaches that state by viewing the intro and answering question 1 |
| GenerateContent.Guard | api/generateContent.js:18-30 | 405 exactly for a method other than POST; 500 for a POST without a body object; 400 exactly when one of the three fields is missing or empty; the request goes on exactly when it is a POST with all three fields present and non-empty, and then carries those fields |
| GenerateContent.JsonCandidate | api/generateContent.js:89-90 | With a `}` after some `{`, the candidate runs from the first `{` to the last `}`; otherwise it is the whole reply |
| GenerateContent.StripNumbering | api/generateContent.js:123 | A reply line starting with a numbering character loses its whole numbering run and the white space after it; any other line is unchanged |
| GenerateContent.CleanHook | api/generateContent.js:123 | The cleaned hook is a prefix of the stripped line that drops exactly its trailing run of quotes and commas |
| GenerateContent.HookYield | api/generateContent.js:121-127 | A trimmed hooks-section line yields its cleaned form exactly when the line is not empty and the cleaned form is usable (non-empty, brace-free) |
| GenerateContent.ScriptYield | api/generateContent.js:129-133 | A trimmed script-section line yields itself plus a newline exactly when it is not empty and brace-free |
| GenerateContent.Classify | api/generateContent.js:108-133 | A line is a header exactly when it mentions a keyword, and it opens the hooks section exactly when it mentions a hooks keyword (that test comes first); a plain line yields at most one cleaned hook and brace-free, newline-terminated script text |
| GenerateContent.LinesOfJoin | api/generateContent.js:104-108 | A reply built from newline-free lines joined by newlines is classified as exactly those lines, one each, in order |
| GenerateContent.Fallback | api/generateContent.js:100-140 | The fallback succeeds exactly when some line yields a hook or script text in its section, and then returns every such yield in input order |
| Scanner.ScanOutput | api/generateContent.js:120-133 | Over soundly classified lines, every collected hook is usable, and the script is brace-free and ends with a newline |
| Scanner.ScanMatchesReference | api/generateContent.js:105-134 | The loop collects exactly each line's yield in the section opened by the nearest header above it, in order |
| Scanner.HarvestEmpty | api/generateContent.js:136-140 | The loop collects nothing exactly when no line yields anything in its section |
| Scanner.PreambleIgnored | api/generateContent.js:105-106 | Lines before the first header contribute nothing |
| Scanner.Collect | api/generateContent.js:136-140 | The result is present exactly when some line yields something; it then has a hook or script text, only usable hooks, and the reference harvest |
| Scanner.ScanSnoc | api/generateContent.js:108-134 | Reading one more line adds that line's yield in the section the loop had reached |
| Scanner.AfterIsSectionAt | api/generateContent.js:109-118 | The loop's running section is the one opened by the nearest header above |
| Text.Trim | api/generateContent.js:120 | The trimmed line is the slice between the leading and trailing white space, and neither of its ends is white space |
| Text.TrimIdempotent | api/generateContent.js:120 | Trimming twice is trimming once |
| Text.ContainsSlice | api/generateContent.js:109 | `includes` holds exactly when the needle is the slice at some position |
| Text.Split | api/generateContent.js:104 | Splitting gives at least one piece, no piece holds the separator, and joining the pieces back gives the input |
| Text.SplitJoin | api/generateContent.js:104 | Splitting a join recovers pieces that do not contain the separator |

## Left out

- React rendering, the loading flag, the subscriptions and their cleanup. The event bus is modelled as direct dispatch (`Journey.Dispatch`, `Journey.Run`).
- The handlers' `catch` blocks. With storage access assumed never to throw (next line), loading and saving catch every other error themselves, so the handler bodies cannot throw in the model. The mount effect's catch is modelled anyway as `Journey.Recover`.
- Storage reads, writes and removals (`getItem`, `setItem`, `removeItem` at src/modules/progress/api.js:44, 32, 62) are assumed never to throw. In the source a throwing `setItem` makes `saveProgress` return `null` with storage unchanged, and a throwing `removeItem` escapes `resetProgress`, so the reset handler's catch would run and the mount effect's fallback would itself throw; none of these paths is modelled.
- Sentry and console reporting, which never affect control flow.
- `localStorage` and JSON serialisation are an explicit `Storage` value. A saved record is assumed to round-trip through JSON faithfully. Stored fields are either absent, mistyped or present; unknown extra fields play no part.
- `ProgressStore.Valid`: the schema's `z.number()` also admits non-integer ids. Ids are `int`, and answer keys are the integer ids rather than their string forms.
- `ProgressStore.Save`: the shared validator's behaviour is not part of this model. A rejected record is treated as one that raises inside the `try`, so the result is `null`.
- The question and narrative constants are a parameter. `JourneyResume.WellFormed` states the registry shape the journey relies on.
- The card components and the progress indicator, whose percentage is a floating-point rounding. Only the event payload shapes are kept (`Journey.Event`).
- The remote model call, environment variables, the HTTP response objects, and `JSON.parse`. The fallback is modelled as what runs once parsing the JSON candidate has thrown.
- `GenerateContent.IsHooksHeader`: `toLowerCase` is not modelled. It cannot change whether a line contains the Arabic keyword, which has no case.
- `GenerateContent.Body`: a field is a string or absent. A present field of another type is not modelled; the guard would treat a falsy one as missing and let a truthy one through.
- Concurrency between tabs: the read-modify-write updates assume a single writer.

## Findings

| source | as written | input that shows it | evidently intended | confidence | as-written member | corrected member |
|---|---|---|---|---|---|---|
| src/modules/journey/ui/Journey.jsx:28-31 | The mount effect shows the intro whenever exactly one narrative has been viewed, whatever the current question | Two questions; view the intro, answer question 1, reload. The stored record has current question 2 and `["intro"]` viewed. The intro is shown instead of question 2's narrative, and viewing it goes straight to question 2, so that narrative is never shown | Show the intro only while question 1 is current; otherwise resume at the current question or its narrative | not executed | JourneyResume.AsWrittenResumeSkipsNarrative, JourneyResume.AsWrittenResumeWitness | JourneyResume.ResumeMatchesLive |

=== FILE: generate.dfy ===
/**
 * The pure parts of the content-generation endpoint: the request guard,
 * the extraction of a JSON candidate from the model's reply, and the
 * line-based fallback that recovers hooks and a script from a reply that is
 * not JSON. The remote call and the JSON parser are not part of this model.
 */
module GenerateContent {
  import opened Wrappers
  import opened Text
  import opened Scanner

  // ---------------------------------------------------------------- request guard

  /** The three body fields the endpoint reads; `None` is a field that is not there. */
  datatype Body = Body(problem: Option<string>, audience: Option<string>, desiredOutcome: Option<string>)

  /**
   * An incoming request. A `None` body is a missing (`undefined` or `null`)
   * body, which cannot be destructured; a body of any other non-object value
   * has none of the three fields, which is `Body(None, None, None)`.
   */
  datatype Request = Request(httpMethod: string, body: Option<Body>)

  /** The guard's verdict: go on to generate content, or answer with an error status. */
  datatype Gate = Proceed(problem: string, audience: string, desiredOutcome: string) | Refuse(status: int)

  /** A string field counts as given when it is present and not empty. */
  predicate Given(f: Option<string>) {
    f.Some? && f.value != ""
  }

  /**
   * Only POST is served (405 otherwise). Reading the fields of a missing body
   * throws inside the handler's `try`, which answers 500; a body lacking any
   * of the three fields, or with one empty, answers 400.
   */
  function Guard(req: Request): (r: Gate)
    ensures r == Refuse(405) <==> req.httpMethod != "POST"
    ensures r == Refuse(500) <==> req.httpMethod == "POST" && req.body.None?
    ensures r == Refuse(400) <==>
      && req.httpMethod == "POST" && req.body.Some?
      && !(Given(req.body.value.problem) && Given(req.body.value.audience) && Given(req.body.value.desiredOutcome))
    ensures r.Proceed? <==>
      && req.httpMethod == "POST" && req.body.Some?
      && Given(req.body.value.problem) && Given(req.body.value.audience) && Given(req.body.value.desiredOutcome)
    ensures r.Proceed? ==>
      && req.body == Some(Body(Some(r.problem), Some(r.audience), Some(r.desiredOutcome)))
      && r.problem != "" && r.audience != "" && r.desiredOutcome != ""
  {
    if req.httpMethod != "POST" then Refuse(405)
    else match req.body
      case None => Refuse(500)
      case Some(b) =>
        if !Given(b.problem) || !Given(b.audience) || !Given(b.desiredOutcome) then Refuse(400)
        else Proceed(b.problem.value, b.audience.value, b.desiredOutcome.value)
  }

  // ---------------------------------------------------------------- JSON candidate

  /** Some `{` comes before some `}`: the pattern `\{[\s\S]*\}` matches. */
  predicate HasBracePair(text: string) {
    exists i, j :: 0 <= i < j < |text| && text[i] == '{' && text[j] == '}'
  }

  /** `r` runs from the first `{` of `text`, at `i`, to its last `}`, at `j`. */
  predicate OutermostSpan(text: string, r: string, i: int, j: int) {
    && 0 <= i < j < |text|
    && text[i] == '{' && text[j] == '}'
    && '{' !in text[..i] && '}' !in text[j + 1..]
    && r == text[i..j + 1]
  }

  /**
   * The text handed to the JSON parser: the greedy match from the first `{`
   * to the last `}` when there is one, the whole reply otherwise.
   */
  function JsonCandidate(text: string): (r: string)
    ensures HasBracePair(text) ==> exists i, j :: OutermostSpan(text, r, i, j)
    ensures !HasBracePair(text) ==> r == text
  {
    if '{' in text && '}' in text && IndexOf(text, '{') < LastIndexOf(text, '}') then
      var i := IndexOf(text, '{');
      var j := LastIndexOf(text, '}');
      assert OutermostSpan(text, text[i..j + 1], i, j);
      text[i..j + 1]
    else
      assert !HasBracePair(text) by {
        forall i, j | 0 <= i < j < |text| && text[i] == '{'
          ensures text[j] != '}'
        {
          assert text[i] in text;
          assert IndexOf(text, '{') <= i;
        }
      }
      text
  }

  // ---------------------------------------------------------------- fallback parse

  /** A hooks header mentions `hooks` or the Arabic `هوك` ("hook"). */
  predicate IsHooksHeader(line: string) {
    Contains(line, "hooks") || Contains(line, "هوك")
  }

  /** A script header mentions `script`, or the Arabic `نص` ("text") or `سكريبت` ("script"). */
  predicate IsScriptHeader(line: string) {
    Contains(line, "script") || Contains(line, "نص") || Contains(line, "سكريبت")
  }

  predicate IsHeader(line: string) {
    IsHooksHeader(line) || IsScriptHeader(line)
  }

  /**
   * `t` is a non-empty run of numbering characters ending before position
   * `k`, then white space, then `r`.
   */
  predicate StripWitness(t: string, r: string, k: int) {
    && 0 < k <= |t| - |r|
    && (k < |t| ==> !Matches(Numbering, t[k]))
    && (forall i :: 0 <= i < k ==> Matches(Numbering, t[i]))
    && (forall i :: k <= i < |t| - |r| ==> Matches(Space, t[i]))
  }

  /**
   * The first replacement of the hook cleaner (pattern `^[0-9\-\.\"\:\}]+\s*`):
   * when `t` starts with numbering characters, removes their whole run and
   * the white space after it.
   */
  function StripNumbering(t: string): (r: string)
    ensures |r| <= |t| && r == t[|t| - |r|..]
    ensures (|t| == 0 || !Matches(Numbering, t[0])) ==> r == t
    ensures |t| > 0 && Matches(Numbering, t[0]) ==>
      && (|r| > 0 ==> !Matches(Space, r[0]))
      && StripWitness(t, r, RunEnd(t, Numbering, 0))
  {
    if |t| > 0 && Matches(Numbering, t[0]) then t[RunEnd(t, Space, RunEnd(t, Numbering, 0))..] else t
  }

  /** The cleaned hook: numbering stripped at the front, then quotes and commas at the end. */
  function CleanHook(t: string): (r: string)
    ensures |r| <= |t|
    ensures r <= StripNumbering(t)
    ensures |r| > 0 ==> !Matches(QuoteOrComma, r[|r| - 1])
    ensures forall i :: |r| <= i < |StripNumbering(t)| ==> Matches(QuoteOrComma, StripNumbering(t)[i])
  {
    var s := StripNumbering(t);
    var j := RunStart(s, QuoteOrComma, 0, |s|);
    assert j > 0 ==> s[..j][j - 1] == s[j - 1];
    s[..j]
  }

  /** A trimmed line in the hooks section: its cleaned form, when that is usable. */
  function HookYield(t: string): (r: Harvest)
    ensures r.script == "" && |r.hooks| <= 1
    ensures forall h :: h in r.hooks ==> UsableHook(h)
    ensures r.hooks != [] <==> t != "" && UsableHook(CleanHook(t))
    ensures r.hooks != [] ==> r.hooks[0] == CleanHook(t)
  {
    var c := CleanHook(t);
    if t != "" && UsableHook(c) then Harvest([c], "") else Nothing
  }

  /** A trimmed line in the script section: itself and a newline, when it is not empty and brace-free. */
  function ScriptYield(t: string): (r: Harvest)
    ensures r.hooks == []
    ensures r.script != "" <==> t != "" && '{' !in t && '}' !in t
    ensures r.script != "" ==> r.script == t + "\n"
    ensures '{' !in r.script && '}' !in r.script
  {
    if t != "" && '{' !in t && '}' !in t then
      assert forall k :: 0 <= k < |t + "\n"| ==> (t + "\n")[k] == '\n' || (t + "\n")[k] in t;
      Harvest([], t + "\n")
    else Nothing
  }

  /**
   * One line of the reply as the loop body sees it: a line mentioning a
   * hooks keyword opens the hooks section (that test comes first), one
   * mentioning a script keyword opens the script section, and any other
   * line is trimmed and offered to both sections.
   */
  function Classify(line: string): (k: Line)
    ensures Sound(k)
    ensures k.Header? <==> IsHeader(line)
    ensures k.Header? ==> (k.opens == Hooks <==> IsHooksHeader(line))
    ensures k.Plain? ==> (k.asHook.hooks != [] <==> Trim(line) != "" && UsableHook(CleanHook(Trim(line))))
    ensures k.Plain? && k.asHook.hooks != [] ==> k.asHook.hooks == [CleanHook(Trim(line))]
    ensures k.Plain? ==> (k.asScript.script != "" <==> Trim(line) != "" && '{' !in Trim(line) && '}' !in Trim(line))
    ensures k.Plain? && k.asScript.script != "" ==> k.asScript.script == Trim(line) + "\n"
  {
    if IsHooksHeader(line) then Header(Hooks)
    else if IsScriptHeader(line) then Header(Script)
    else
      var t := Trim(line);
      Plain(HookYield(t), ScriptYield(t))
  }

  /** Each line classified, in order. */
  function ClassifyAll(lines: seq<string>): (ks: seq<Line>)
    ensures |ks| == |lines|
    ensures forall i :: 0 <= i < |ks| ==> Sound(ks[i])
    decreases |lines|
  {
    if |lines| == 0 then [] else [Classify(lines[0])] + ClassifyAll(lines[1..])
  }

  /** The `i`-th classified line is the classification of the `i`-th line. */
  lemma {:induction false} ClassifyAllAt(lines: seq<string>, i: int)
    requires 0 <= i < |lines|
    ensures ClassifyAll(lines)[i] == Classify(lines[i])
    decreases i
  {
    if i > 0 {
      ClassifyAllAt(lines[1..], i - 1);
    }
  }

  /** The reply's lines (`split('\n')`), each classified. */
  function Lines(text: string): (ks: seq<Line>)
    ensures |ks| == |Split(text, '\n')|
    ensures forall i :: 0 <= i < |ks| ==> Sound(ks[i])
  {
    ClassifyAll(Split(text, '\n'))
  }

  /**
   * A reply made of newline-free lines joined by newlines is classified line
   * by line, in order: the split recovers exactly the lines that were joined.
   */
  lemma {:induction false} LinesOfJoin(parts: seq<string>)
    requires |parts| >= 1
    requires forall i :: 0 <= i < |parts| ==> '\n' !in parts[i]
    ensures |Lines(Join(parts, '\n'))| == |parts|
    ensures forall i :: 0 <= i < |parts| ==> Lines(Join(parts, '\n'))[i] == Classify(parts[i])
  {
    SplitJoin(parts, '\n');
    forall i | 0 <= i < |parts|
      ensures Lines(Join(parts, '\n'))[i] == Classify(parts[i])
    {
      ClassifyAllAt(parts, i);
    }
  }

  /**
   * The fallback parse of a whole reply: it succeeds exactly when some line
   * yields a hook or script text in its section, and then holds every such
   * yield in order.
   */
  function Fallback(text: string): (r: Option<Harvest>)
    ensures r.Some? <==> Productive(Lines(text))
    ensures r.Some? ==> r.value.hooks != [] || r.value.script != ""
    ensures r.Some? ==> forall h :: h in r.value.hooks ==> UsableHook(h)
    ensures r.Some? ==>
      var ks := Lines(text);
      r.value == Concat(Yields(ks, Preamble, |ks|))
  {
    Collect(Lines(text))
  }
}

=== FILE: journey.dfy ===
/**
 * The journey controller: the bootstrap that decides what to show when the
 * journey is mounted, and the three event handlers (`QUESTION_ANSWERED`,
 * `NARRATIVE_VIEWED`, `JOURNEY_RESET`), as pure functions over the view state
 * and the storage. The question registry is a parameter.
 */
module Journey {
  import opened Wrappers
  import opened ProgressStore

  /** A registry entry: its id and the narrative that precedes it. */
  datatype Question = Question(id: int, narrativeKey: string)

  type Registry = seq<Question>

  /** The registry contract: ids are 1, 2, ..., in order. */
  predicate Contiguous(qs: Registry) {
    forall i :: 0 <= i < |qs| ==> qs[i].id == i + 1
  }

  /** The first question with the given id (the registry's `find`). */
  function FindQuestion(qs: Registry, id: int): (r: Option<Question>)
    ensures r.None? <==> forall i :: 0 <= i < |qs| ==> qs[i].id != id
    ensures r.Some? ==>
      exists j :: 0 <= j < |qs| && qs[j] == r.value && r.value.id == id
                  && forall i :: 0 <= i < j ==> qs[i].id != id
  {
    if |qs| == 0 then None
    else if qs[0].id == id then Some(qs[0])
    else
      var r := FindQuestion(qs[1..], id);
      assert forall i :: 1 <= i < |qs| ==> qs[i] == qs[1..][i - 1];
      r
  }

  /** In a contiguous registry, question `id` is at position `id - 1`, if it is in range. */
  lemma FindContiguous(qs: Registry, id: int)
    requires Contiguous(qs)
    ensures FindQuestion(qs, id) == if 1 <= id <= |qs| then Some(qs[id - 1]) else None
  {
    if 1 <= id <= |qs| {
      assert qs[id - 1].id == id;
    }
  }

  /** The component's state variables (the loading flag aside). */
  datatype View = View(
    progress: Option<Progress>,
    showNarrative: bool,
    narrativeKey: string,
    isCompleted: bool)

  /** The state before the mount effect has run. */
  const Initial: View := View(None, true, "intro", false)

  /** The view state together with the storage it reads and writes. */
  datatype Machine = Machine(view: View, store: Storage)

  /** What the component renders in its main slot. */
  datatype Display = Narrative(key: string) | QuestionCard(id: int) | Blank

  function Shown(v: View): Display {
    if v.showNarrative then Narrative(v.narrativeKey)
    else if v.progress.Some? then QuestionCard(v.progress.value.currentQuestionId)
    else Blank
  }

  /** The last element of a sequence, or `None` (JavaScript's `undefined`) for an empty one. */
  function LastOf(xs: seq<string>): (r: Option<string>)
    ensures r.Some? <==> |xs| > 0
    ensures r.Some? ==> r.value in xs
  {
    if |xs| == 0 then None else Some(xs[|xs| - 1])
  }

  /**
   * The bootstrap's final branch: show question `p.currentQuestionId` when its
   * narrative is the last one viewed, otherwise that narrative; with no such
   * question the view is left as it was.
   */
  function ResumeAtQuestion(qs: Registry, p: Progress, v: View): (r: View)
    ensures r.progress == v.progress && r.isCompleted == v.isCompleted
    ensures FindQuestion(qs, p.currentQuestionId).None? ==> r == v
    ensures FindQuestion(qs, p.currentQuestionId).Some? ==>
      var q := FindQuestion(qs, p.currentQuestionId).value;
      && (r.showNarrative <==> LastOf(p.viewedNarratives) != Some(q.narrativeKey))
      && (r.showNarrative ==> r.narrativeKey == q.narrativeKey)
      && (!r.showNarrative ==> r.narrativeKey == v.narrativeKey)
  {
    match FindQuestion(qs, p.currentQuestionId)
    case Some(q) =>
      if LastOf(p.viewedNarratives) == Some(q.narrativeKey) then v.(showNarrative := false)
      else v.(showNarrative := true, narrativeKey := q.narrativeKey)
    case None => v
  }

  /**
   * The mount effect as written: load, then show the conclusion past the last
   * question, the intro when exactly one narrative has been viewed, and
   * otherwise decide between the current question and its narrative.
   */
  function Bootstrap(qs: Registry, s: Storage): (r: Machine)
    ensures r.store == s
    ensures r.view.progress == Some(Load(s)) && r.view.isCompleted == Load(s).completed
    ensures Load(s).currentQuestionId > |qs| ==> Shown(r.view) == Narrative("conclusion")
    ensures Load(s).currentQuestionId <= |qs| && |Load(s).viewedNarratives| == 1 ==>
      Shown(r.view) == Narrative("intro")
    ensures Load(s).currentQuestionId <= |qs| && |Load(s).viewedNarratives| != 1 ==>
      r.view == ResumeAtQuestion(qs, Load(s), Initial.(progress := Some(Load(s)), isCompleted := Load(s).completed))
  {
    var p := Load(s);
    var v := Initial.(progress := Some(p), isCompleted := p.completed);
    if p.currentQuestionId > |qs| then Machine(v.(showNarrative := true, narrativeKey := "conclusion"), s)
    else if |p.viewedNarratives| == 1 then Machine(v.(showNarrative := true, narrativeKey := "intro"), s)
    else Machine(ResumeAtQuestion(qs, p, v), s)
  }

  /**
   * The mount effect with the intro branch restricted to a journey that has
   * not answered any question yet (`currentQuestionId == 1`).
   */
  function ResumingBootstrap(qs: Registry, s: Storage): (r: Machine)
    ensures r.store == s
    ensures r.view.progress == Some(Load(s)) && r.view.isCompleted == Load(s).completed
    ensures Load(s).currentQuestionId > |qs| ==> Shown(r.view) == Narrative("conclusion")
    ensures Load(s).currentQuestionId <= |qs| && Load(s).currentQuestionId == 1 && |Load(s).viewedNarratives| == 1 ==>
      Shown(r.view) == Narrative("intro")
    ensures Load(s).currentQuestionId <= |qs| && !(Load(s).currentQuestionId == 1 && |Load(s).viewedNarratives| == 1) ==>
      r.view == ResumeAtQuestion(qs, Load(s), Initial.(progress := Some(Load(s)), isCompleted := Load(s).completed))
  {
    var p := Load(s);
    var v := Initial.(progress := Some(p), isCompleted := p.completed);
    if p.currentQuestionId > |qs| then Machine(v.(showNarrative := true, narrativeKey := "conclusion"), s)
    else if |p.viewedNarratives| == 1 && p.currentQuestionId == 1 then Machine(v.(showNarrative := true, narrativeKey := "intro"), s)
    else Machine(ResumeAtQuestion(qs, p, v), s)
  }

  /** The mount effect's error path: clear the storage and show the intro over the default record. */
  function Recover(v: View, s: Storage): (r: Machine)
    ensures r.store == None && Load(r.store) == Default
    ensures r.view.progress == Some(Default)
    ensures Shown(r.view) == Narrative("intro")
    ensures r.view.isCompleted == v.isCompleted
  {
    var reset := Reset(s);
    Machine(v.(progress := Some(reset.value), showNarrative := true, narrativeKey := "intro"), reset.store)
  }

  /** The event payloads the cards publish. */
  datatype Event =
    | QuestionAnswered(questionId: int, answer: string, narrativeKey: string)
    | NarrativeViewed(narrativeKey: string)
    | JourneyReset

  /**
   * `QUESTION_ANSWERED`: record the answer; past the last question also
   * complete the journey and show the conclusion, otherwise show the next
   * question's narrative. The view's record is the one `updateAnswer`
   * returned, so after the last answer it still reads `completed == false`
   * while the storage holds `true`.
   */
  function OnQuestionAnswered(qs: Registry, m: Machine, q: int, answer: string): (r: Machine)
    ensures q >= 0 ==>
      && Load(r.store).currentQuestionId == q + 1
      && q in Load(r.store).answers && Load(r.store).answers[q] == answer
      && r.view.progress.Some? && r.view.progress.value.currentQuestionId == q + 1
    ensures q >= 0 ==>
      r.view.progress == Some(Load(m.store).(currentQuestionId := q + 1, answers := Load(m.store).answers[q := answer]))
    ensures q < 0 ==> r.view.progress == None && r.store == m.store
    ensures Load(r.store).viewedNarratives == Load(m.store).viewedNarratives
    ensures q + 1 > |qs| ==>
      && Load(r.store).completed
      && r.view.isCompleted
      && Shown(r.view) == Narrative("conclusion")
    ensures q + 1 <= |qs| ==>
      && Load(r.store).completed == Load(m.store).completed
      && r.view.isCompleted == m.view.isCompleted
    ensures q + 1 <= |qs| && Contiguous(qs) && q >= 0 ==>
      Shown(r.view) == Narrative(qs[q].narrativeKey)
  {
    var next := q + 1;
    var updated := UpdateAnswer(q, answer, m.store);
    var v := m.view.(progress := updated.value);
    if next > |qs| then
      var done := CompleteJourney(updated.store);
      Machine(v.(isCompleted := true, showNarrative := true, narrativeKey := "conclusion"), done.store)
    else
      FindContiguousWhenAsked(qs, next);
      match FindQuestion(qs, next)
      case Some(nq) => Machine(v.(showNarrative := true, narrativeKey := nq.narrativeKey), updated.store)
      case None => Machine(v, updated.store)
  }

  /** `FindContiguous` when the registry happens to be contiguous; nothing otherwise. */
  lemma FindContiguousWhenAsked(qs: Registry, id: int)
    ensures Contiguous(qs) && 1 <= id <= |qs| ==> FindQuestion(qs, id) == Some(qs[id - 1])
  {
    if Contiguous(qs) {
      FindContiguous(qs, id);
    }
  }

  /**
   * `NARRATIVE_VIEWED`: record the key; the conclusion leaves the display as
   * it is, any other key switches to the question view.
   */
  function OnNarrativeViewed(m: Machine, key: string): (r: Machine)
    ensures key in Load(r.store).viewedNarratives
    ensures r.view.progress == Some(Load(r.store))
    ensures Load(r.store).(viewedNarratives := Load(m.store).viewedNarratives) == Load(m.store)
    ensures r.view.isCompleted == m.view.isCompleted
    ensures key == "conclusion" ==> r.view == m.view.(progress := r.view.progress)
    ensures key != "conclusion" ==> !r.view.showNarrative && r.view.narrativeKey == m.view.narrativeKey
  {
    var viewed := ViewNarrative(key, m.store);
    var v := m.view.(progress := viewed.value);
    if key == "conclusion" then Machine(v, viewed.store)
    else Machine(v.(showNarrative := false), viewed.store)
  }

  /** `JOURNEY_RESET`: back to the default record and the intro, whatever the prior state. */
  function OnReset(m: Machine): (r: Machine)
    ensures r.store == None && Load(r.store) == Progress(1, map[], false, ["intro"])
    ensures r.view == View(Some(Default), true, "intro", false)
  {
    var reset := Reset(m.store);
    Machine(m.view.(progress := Some(reset.value), isCompleted := false, showNarrative := true, narrativeKey := "intro"), reset.store)
  }

  /** Routes an event to its handler (the event bus, with one subscriber per event). */
  function Dispatch(qs: Registry, m: Machine, e: Event): Machine {
    match e
    case QuestionAnswered(q, answer, _) => OnQuestionAnswered(qs, m, q, answer)
    case NarrativeViewed(key) => OnNarrativeViewed(m, key)
    case JourneyReset => OnReset(m)
  }

  /** Dispatches the events in order. */
  function Run(qs: Registry, m: Machine, es: seq<Event>): Machine
    decreases |es|
  {
    if |es| == 0 then m else Dispatch(qs, Run(qs, m, es[..|es| - 1]), es[|es| - 1])
  }
}

=== FILE: progress.dfy ===
/**
 * The journey progress store: one `Progress` record kept under a single
 * storage key, a schema checked on every load and save, a default record,
 * and three read-modify-write updates.
 *
 * Storage is an explicit value threaded through every operation: `None` is
 * an absent key, `Some(Unparsable)` is text that is not JSON, and
 * `Some(Parsed(rec))` is a JSON object whose fields the schema inspects.
 */
module ProgressStore {
  import opened Wrappers

  /** The persisted record. Answer keys are question ids. */
  datatype Progress = Progress(
    currentQuestionId: int,
    answers: map<int, string>,
    completed: bool,
    viewedNarratives: seq<string>)

  /** The schema's one constraint on values: question ids start at 1. */
  predicate Valid(p: Progress) {
    p.currentQuestionId >= 1
  }

  /** The record a new journey starts from. */
  const Default: Progress := Progress(1, map[], false, ["intro"])

  /** One field of a stored JSON object as the schema sees it. */
  datatype Field<T> = Absent | Mistyped | Present(value: T) {

    /** The field's value, or `default` when it is absent (a schema `.default(...)`). */
    function Or(default: T): T
      requires !Mistyped?
    {
      if Present? then value else default
    }
  }

  datatype StoredRecord = StoredRecord(
    currentQuestionId: Field<int>,
    answers: Field<map<int, string>>,
    completed: Field<bool>,
    viewedNarratives: Field<seq<string>>)

  /** What the storage key holds when it is present. */
  datatype Document = Unparsable | Parsed(record: StoredRecord)

  type Storage = Option<Document>

  /** A value computed by a store operation, with the storage it leaves behind. */
  datatype Step<T> = Step(value: T, store: Storage)

  /**
   * The schema: `currentQuestionId` a number at least 1, `answers` a record of
   * strings, `completed` a boolean defaulting to false, `viewedNarratives` a
   * string array defaulting to the EMPTY array.
   */
  function Validate(rec: StoredRecord): (r: Option<Progress>)
    ensures r.Some? <==>
      && rec.currentQuestionId.Present? && rec.currentQuestionId.value >= 1
      && rec.answers.Present?
      && !rec.completed.Mistyped?
      && !rec.viewedNarratives.Mistyped?
    ensures r.Some? ==> Valid(r.value)
  {
    if !rec.currentQuestionId.Present? || rec.currentQuestionId.value < 1 then None
    else if !rec.answers.Present? then None
    else if rec.completed.Mistyped? || rec.viewedNarratives.Mistyped? then None
    else Some(Progress(
      rec.currentQuestionId.value,
      rec.answers.value,
      rec.completed.Or(false),
      rec.viewedNarratives.Or([])))
  }

  /** The JSON object a record is written as: every field present. */
  function Encode(p: Progress): StoredRecord {
    StoredRecord(Present(p.currentQuestionId), Present(p.answers), Present(p.completed), Present(p.viewedNarratives))
  }

  /** A record survives encoding and validation unchanged exactly when it is valid. */
  lemma EncodeRoundTrip(p: Progress)
    ensures Valid(p) <==> Validate(Encode(p)) == Some(p)
    ensures !Valid(p) ==> Validate(Encode(p)) == None
  {
  }

  /**
   * Each optional field takes its own default: a missing `completed` loads as
   * `false` and a missing `viewedNarratives` as `[]`, whatever the other holds.
   */
  lemma ValidateDefaults(id: int, answers: map<int, string>, c: Field<bool>, v: Field<seq<string>>)
    requires id >= 1 && !c.Mistyped? && !v.Mistyped?
    ensures Validate(StoredRecord(Present(id), Present(answers), c, v))
         == Some(Progress(id, answers, c == Present(true), if v.Present? then v.value else []))
  {
  }

  /**
   * Reads the stored record. Never fails: an absent key, unparsable text or a
   * record the schema rejects all yield the default record.
   */
  function Load(s: Storage): (p: Progress)
    ensures Valid(p)
    ensures s.Some? && s.value.Parsed? && Validate(s.value.record).Some? ==> p == Validate(s.value.record).value
    ensures (s.None? || s == Some(Unparsable)) ==> p == Default
    ensures s.Some? && s.value.Parsed? && Validate(s.value.record).None? ==> p == Default
  {
    match s
    case None => Default
    case Some(Unparsable) => Default
    case Some(Parsed(rec)) => Validate(rec).GetOr(Default)
  }

  /**
   * Validates and persists a record. A valid record is stored and returned, so
   * a following load yields it; an invalid one yields `None` and the storage
   * is left as it was.
   */
  function Save(p: Progress, s: Storage): (r: Step<Option<Progress>>)
    ensures Valid(p) ==> r.value == Some(p) && Load(r.store) == p
    ensures !Valid(p) ==> r.value == None && r.store == s
  {
    EncodeRoundTrip(p);
    match Validate(Encode(p))
    case Some(v) =>
      EncodeRoundTrip(v);
      Step(Some(v), Some(Parsed(Encode(v))))
    case None => Step(None, s)
  }

  /** Clears the storage key and returns the default record. */
  function Reset(s: Storage): (r: Step<Progress>)
    ensures r.store == None
    ensures r.value == Progress(1, map[], false, ["intro"])
    ensures Load(r.store) == r.value
  {
    Step(Default, None)
  }

  /**
   * Records `answer` for question `q` and moves the current question to
   * `q + 1` (an assignment, not an increment of the stored id).
   */
  function UpdateAnswer(q: int, answer: string, s: Storage): (r: Step<Option<Progress>>)
    ensures q < 0 ==> r.value == None && r.store == s
    ensures q >= 0 ==> r.value.Some? && Load(r.store) == r.value.value
    ensures q >= 0 ==>
      var before := Load(s);
      var after := r.value.value;
      && after.currentQuestionId == q + 1
      && after.answers.Keys == before.answers.Keys + {q}
      && after.answers[q] == answer
      && (forall k :: k in before.answers && k != q ==> after.answers[k] == before.answers[k])
      && after.completed == before.completed
      && after.viewedNarratives == before.viewedNarratives
  {
    var p := Load(s);
    Save(p.(answers := p.answers[q := answer], currentQuestionId := q + 1), s)
  }

  /**
   * Marks narrative `key` as viewed. A key already present leaves the record
   * and the storage untouched; a new key is appended at the end.
   */
  function ViewNarrative(key: string, s: Storage): (r: Step<Option<Progress>>)
    ensures r.value.Some? && Load(r.store) == r.value.value
    ensures key in r.value.value.viewedNarratives
    ensures key in Load(s).viewedNarratives ==> r.value == Some(Load(s)) && r.store == s
    ensures key !in Load(s).viewedNarratives ==>
      r.value.value == Load(s).(viewedNarratives := Load(s).viewedNarratives + [key])
  {
    var p := Load(s);
    if key in p.viewedNarratives then Step(Some(p), s)
    else Save(p.(viewedNarratives := p.viewedNarratives + [key]), s)
  }

  /** Sets `completed`; every other field keeps its loaded value, and the save cannot fail. */
  function CompleteJourney(s: Storage): (r: Step<Option<Progress>>)
    ensures r.value.Some? && Load(r.store) == r.value.value
    ensures r.value.value.completed
    ensures r.value.value.(completed := Load(s).completed) == Load(s)
  {
    var p := Load(s);
    Save(p.(completed := true), s)
  }

  predicate NoDuplicates<T(==)>(xs: seq<T>) {
    forall i, j :: 0 <= i < j < |xs| ==> xs[i] != xs[j]
  }

  /** Viewing a narrative never introduces a duplicate key and keeps earlier keys in order. */
  lemma ViewNarrativeKeepsDistinct(key: string, s: Storage)
    requires NoDuplicates(Load(s).viewedNarratives)
    ensures NoDuplicates(Load(ViewNarrative(key, s).store).viewedNarratives)
    ensures Load(s).viewedNarratives <= Load(ViewNarrative(key, s).store).viewedNarratives
  {
    var before := Load(s).viewedNarratives;
    var after := Load(ViewNarrative(key, s).store).viewedNarratives;
    if key !in before {
      assert after == before + [key];
      forall i, j | 0 <= i < j < |after|
        ensures after[i] != after[j]
      {
        if j == |before| {
          assert after[i] == before[i];
        }
      }
    }
  }

  /** Viewing the same narrative twice is the same as viewing it once, storage included. */
  lemma ViewNarrativeIdempotent(key: string, s: Storage)
    ensures var once := ViewNarrative(key, s);
            ViewNarrative(key, once.store) == once
  {
  }
}

=== FILE: resume.dfy ===
/**
 * What "resume exactly where it left off" means for the journey, and the
 * proof that it holds for the mount effect with a corrected intro branch but
 * not for the mount effect as written.
 *
 * A journey is followed through the events its cards can publish (`Allowed`).
 * Every state reached that way is `Consistent`: the stored record and the
 * view agree on one of three phases (a narrative is due, a question is due,
 * the journey is finished). Remounting from the storage of a consistent state
 * must give a consistent state showing the same thing.
 */
module JourneyResume {
  import opened Wrappers
  import opened ProgressStore
  import opened Journey

  /**
   * The registry shape the linear journey relies on: at least one question,
   * ids 1..n in order, and the narratives that precede questions 2..n
   * distinct from each other and from the reserved keys. (The first
   * question is preceded by the intro, so its own key plays no part.)
   */
  predicate WellFormed(qs: Registry) {
    && |qs| >= 1
    && Contiguous(qs)
    && (forall i :: 1 <= i < |qs| ==> qs[i].narrativeKey != "intro" && qs[i].narrativeKey != "conclusion")
    && (forall i, j :: 1 <= i < j < |qs| ==> qs[i].narrativeKey != qs[j].narrativeKey)
  }

  /** The narratives viewed by the time question `c` is on screen: the intro, then those of questions 2..c. */
  function Trail(qs: Registry, c: int): (t: seq<string>)
    requires 1 <= c <= |qs|
    ensures |t| == c
    ensures t[0] == "intro"
    ensures forall i :: 1 <= i < c ==> t[i] == qs[i].narrativeKey
    decreases c
  {
    if c == 1 then ["intro"] else Trail(qs, c - 1) + [qs[c - 1].narrativeKey]
  }

  /** The narrative shown before question `c`. */
  function DueKey(qs: Registry, c: int): string
    requires 1 <= c <= |qs|
  {
    if c == 1 then "intro" else qs[c - 1].narrativeKey
  }

  /** The narratives viewed while question `c`'s narrative is on screen. */
  function TrailBefore(qs: Registry, c: int): seq<string>
    requires 1 <= c <= |qs|
  {
    if c == 1 then Trail(qs, 1) else Trail(qs, c - 1)
  }

  predicate NarrativeDue(qs: Registry, p: Progress, v: View) {
    && 1 <= p.currentQuestionId <= |qs|
    && !p.completed && !v.isCompleted
    && v.showNarrative && v.narrativeKey == DueKey(qs, p.currentQuestionId)
    && p.viewedNarratives == TrailBefore(qs, p.currentQuestionId)
  }

  predicate QuestionDue(qs: Registry, p: Progress, v: View) {
    && 1 <= p.currentQuestionId <= |qs|
    && !p.completed && !v.isCompleted
    && !v.showNarrative
    && p.viewedNarratives == Trail(qs, p.currentQuestionId)
  }

  predicate Finished(qs: Registry, p: Progress, v: View) {
    && |qs| >= 1
    && p.currentQuestionId == |qs| + 1
    && p.completed && v.isCompleted
    && v.showNarrative && v.narrativeKey == "conclusion"
    && (p.viewedNarratives == Trail(qs, |qs|) || p.viewedNarratives == Trail(qs, |qs|) + ["conclusion"])
  }

  /** The view and the stored record agree on the phase of the journey and on the current question. */
  predicate Consistent(qs: Registry, m: Machine) {
    var p := Load(m.store);
    && m.view.progress.Some?
    && m.view.progress.value.currentQuestionId == p.currentQuestionId
    && (NarrativeDue(qs, p, m.view) || QuestionDue(qs, p, m.view) || Finished(qs, p, m.view))
  }

  /**
   * The events the rendered cards can publish: the reset button is always
   * there, a narrative card publishes its own key, and a question card
   * publishes the current question's id and key with a selected option.
   */
  predicate Allowed(qs: Registry, m: Machine, e: Event) {
    match e
    case JourneyReset => true
    case NarrativeViewed(key) => m.view.showNarrative && key == m.view.narrativeKey
    case QuestionAnswered(q, answer, key) =>
      && !m.view.showNarrative
      && m.view.progress.Some?
      && FindQuestion(qs, m.view.progress.value.currentQuestionId) == Some(Question(q, key))
      && answer != ""
  }

  /** Question `c`'s narrative has not been viewed before it is due. */
  lemma DueKeyIsNew(qs: Registry, c: int)
    requires WellFormed(qs)
    requires 2 <= c <= |qs|
    ensures qs[c - 1].narrativeKey !in Trail(qs, c - 1)
    ensures LastOf(Trail(qs, c - 1)) != Some(qs[c - 1].narrativeKey)
  {
    var t := Trail(qs, c - 1);
    forall i | 0 <= i < |t|
      ensures t[i] != qs[c - 1].narrativeKey
    {
      if i > 0 {
        assert t[i] == qs[i].narrativeKey;
      }
    }
  }

  /** A fresh journey (nothing stored) starts consistently on the intro, with either mount effect. */
  lemma FreshStart(qs: Registry)
    requires WellFormed(qs)
    ensures Consistent(qs, Bootstrap(qs, None)) && Shown(Bootstrap(qs, None).view) == Narrative("intro")
    ensures Consistent(qs, ResumingBootstrap(qs, None)) && Shown(ResumingBootstrap(qs, None).view) == Narrative("intro")
  {
    assert Trail(qs, 1) == ["intro"];
  }

  /** The reset button leads back to the intro from any state. */
  lemma ResetKeepsConsistent(qs: Registry, m: Machine)
    requires WellFormed(qs)
    ensures Consistent(qs, OnReset(m))
  {
    var r := OnReset(m);
    assert Trail(qs, 1) == ["intro"];
    assert NarrativeDue(qs, Load(r.store), r.view);
  }

  /** Viewing the narrative on screen keeps the journey consistent and the current question where it is. */
  lemma NarrativeKeepsConsistent(qs: Registry, m: Machine, key: string)
    requires WellFormed(qs)
    requires Consistent(qs, m)
    requires m.view.showNarrative && key == m.view.narrativeKey
    ensures Consistent(qs, OnNarrativeViewed(m, key))
    ensures Load(OnNarrativeViewed(m, key).store).currentQuestionId == Load(m.store).currentQuestionId
  {
    var p := Load(m.store);
    var c := p.currentQuestionId;
    var r := OnNarrativeViewed(m, key);
    if NarrativeDue(qs, p, m.view) {
      if c == 1 {
        assert Trail(qs, 1) == ["intro"];
        assert QuestionDue(qs, Load(r.store), r.view);
      } else {
        DueKeyIsNew(qs, c);
        assert Load(r.store).viewedNarratives == Trail(qs, c);
        assert QuestionDue(qs, Load(r.store), r.view);
      }
    } else {
      assert Finished(qs, p, m.view);
      assert Finished(qs, Load(r.store), r.view);
    }
  }

  /** Answering the question on screen moves to the next narrative, or to the conclusion after the last. */
  lemma AnswerKeepsConsistent(qs: Registry, m: Machine, q: int, answer: string)
    requires WellFormed(qs)
    requires Consistent(qs, m)
    requires !m.view.showNarrative && m.view.progress.Some?
    requires FindQuestion(qs, m.view.progress.value.currentQuestionId).Some?
    requires FindQuestion(qs, m.view.progress.value.currentQuestionId).value.id == q
    ensures Consistent(qs, OnQuestionAnswered(qs, m, q, answer))
    ensures Load(OnQuestionAnswered(qs, m, q, answer).store).currentQuestionId == Load(m.store).currentQuestionId + 1
  {
    var p := Load(m.store);
    var c := p.currentQuestionId;
    var r := OnQuestionAnswered(qs, m, q, answer);
    assert QuestionDue(qs, p, m.view);
    FindContiguous(qs, c);
    assert q == c;
    if c + 1 > |qs| {
      assert Finished(qs, Load(r.store), r.view);
    } else {
      assert NarrativeDue(qs, Load(r.store), r.view);
    }
  }

  /**
   * Every event the cards can publish keeps the journey consistent; answering
   * moves the current question up by exactly one and viewing a narrative
   * leaves it where it is.
   */
  lemma DispatchKeepsConsistent(qs: Registry, m: Machine, e: Event)
    requires WellFormed(qs)
    requires Consistent(qs, m)
    requires Allowed(qs, m, e)
    ensures Consistent(qs, Dispatch(qs, m, e))
    ensures e.QuestionAnswered? ==>
      Load(Dispatch(qs, m, e).store).currentQuestionId == Load(m.store).currentQuestionId + 1
    ensures e.NarrativeViewed? ==>
      Load(Dispatch(qs, m, e).store).currentQuestionId == Load(m.store).currentQuestionId
  {
    match e
    case JourneyReset => ResetKeepsConsistent(qs, m);
    case NarrativeViewed(key) => NarrativeKeepsConsistent(qs, m, key);
    case QuestionAnswered(q, answer, _) => AnswerKeepsConsistent(qs, m, q, answer);
  }

  /** One answer as a change to the stored record. */
  lemma AnswerStep(qs: Registry, m: Machine, q: int, answer: string)
    requires q >= 0
    ensures var before := Load(m.store);
      Load(OnQuestionAnswered(qs, m, q, answer).store)
        == before.(currentQuestionId := q + 1, answers := before.answers[q := answer],
                   completed := before.completed || q + 1 > |qs|)
  {
    var before := Load(m.store);
    var after := Load(OnQuestionAnswered(qs, m, q, answer).store);
    assert after.answers == before.answers[q := answer];
  }

  /**
   * Remounting with the corrected intro branch keeps the journey consistent
   * and shows what the live view showed, except that a journey waiting on
   * question 1 shows the intro again (viewing it leads straight back).
   */
  lemma ResumeMatchesLive(qs: Registry, m: Machine)
    requires WellFormed(qs)
    requires Consistent(qs, m)
    ensures Consistent(qs, ResumingBootstrap(qs, m.store))
    ensures var shown := Shown(ResumingBootstrap(qs, m.store).view);
      || shown == Shown(m.view)
      || (Shown(m.view) == QuestionCard(1) && shown == Narrative("intro"))
  {
    var p := Load(m.store);
    var c := p.currentQuestionId;
    var r := ResumingBootstrap(qs, m.store);
    if Finished(qs, p, m.view) {
      assert Finished(qs, p, r.view);
    } else if c == 1 {
      assert Trail(qs, 1) == ["intro"];
      assert NarrativeDue(qs, p, r.view);
    } else {
      FindContiguous(qs, c);
      if NarrativeDue(qs, p, m.view) {
        DueKeyIsNew(qs, c);
        assert NarrativeDue(qs, p, r.view);
      } else {
        assert QuestionDue(qs, p, m.view);
        assert p.viewedNarratives[c - 1] == qs[c - 1].narrativeKey;
        assert QuestionDue(qs, p, r.view);
      }
    }
  }

  /**
   * The mount effect as written, on a journey whose first question has been
   * answered but whose second narrative has not been viewed: it shows the
   * intro instead of that narrative, viewing the intro then puts question 2
   * on screen, and the second narrative is never recorded.
   */
  lemma AsWrittenResumeSkipsNarrative(qs: Registry, m: Machine)
    requires WellFormed(qs) && |qs| >= 2
    requires Consistent(qs, m)
    requires Load(m.store).currentQuestionId == 2 && m.view.showNarrative
    ensures Shown(m.view) == Narrative(qs[1].narrativeKey)
    ensures Shown(Bootstrap(qs, m.store).view) == Narrative("intro")
    ensures var after := Dispatch(qs, Bootstrap(qs, m.store), NarrativeViewed("intro"));
      && Shown(after.view) == QuestionCard(2)
      && qs[1].narrativeKey !in Load(after.store).viewedNarratives
      && !Consistent(qs, after)
  {
    var p := Load(m.store);
    assert NarrativeDue(qs, p, m.view);
    assert Trail(qs, 1) == ["intro"];
    var after := Dispatch(qs, Bootstrap(qs, m.store), NarrativeViewed("intro"));
    assert Load(after.store) == p;
    assert Trail(qs, 2)[1] == qs[1].narrativeKey;
  }

  /** A two-question journey reaches that state: view the intro, answer question 1. */
  lemma AsWrittenResumeWitness()
    ensures var qs := [Question(1, "n1"), Question(2, "n2")];
      var m := Run(qs, Bootstrap(qs, None), [NarrativeViewed("intro"), QuestionAnswered(1, "A", "n1")]);
      && Consistent(qs, m)
      && Shown(m.view) == Narrative("n2")
      && Shown(Bootstrap(qs, m.store).view) == Narrative("intro")
  {
    var qs := [Question(1, "n1"), Question(2, "n2")];
    var es := [NarrativeViewed("intro"), QuestionAnswered(1, "A", "n1")];
    FreshStart(qs);
    var m0 := Bootstrap(qs, None);
    var m1 := Dispatch(qs, m0, es[0]);
    assert es[..1] == [es[0]] && es[..2] == es;
    DispatchKeepsConsistent(qs, m0, es[0]);
    assert Allowed(qs, m1, es[1]);
    DispatchKeepsConsistent(qs, m1, es[1]);
    var m := Dispatch(qs, m1, es[1]);
    assert Run(qs, m0, es) == m;
    AsWrittenResumeSkipsNarrative(qs, m);
  }

  /**
   * Answering questions 1, 2, ..., k in order leaves the current question at
   * k + 1 with every answer recorded, and completes the journey exactly when
   * the last question has been answered (or it was already complete).
   */
  lemma {:induction false} AnsweringInOrder(qs: Registry, m: Machine, es: seq<Event>)
    requires |es| >= 1
    requires forall i :: 0 <= i < |es| ==> es[i].QuestionAnswered? && es[i].questionId == i + 1
    ensures var p := Load(Run(qs, m, es).store);
      && p.currentQuestionId == |es| + 1
      && (forall j :: 1 <= j <= |es| ==> j in p.answers && p.answers[j] == es[j - 1].answer)
      && (p.completed <==> Load(m.store).completed || |es| >= |qs|)
      && p.viewedNarratives == Load(m.store).viewedNarratives
    decreases |es|
  {
    var n := |es|;
    var prev := Run(qs, m, es[..n - 1]);
    var e := es[n - 1];
    var next := OnQuestionAnswered(qs, prev, e.questionId, e.answer);
    assert Run(qs, m, es) == next;
    AnswerStep(qs, prev, e.questionId, e.answer);
    var p0 := Load(prev.store);
    var p := Load(next.store);
    assert p.answers == p0.answers[n := e.answer];
    assert p.completed == (p0.completed || n >= |qs|);
    if n == 1 {
      assert prev == m;
    } else {
      var before := es[..n - 1];
      assert forall i :: 0 <= i < n - 1 ==> before[i] == es[i];
      AnsweringInOrder(qs, m, before);
      assert p0.completed <==> Load(m.store).completed || n - 1 >= |qs|;
      forall j | 1 <= j <= n
        ensures j in p.answers && p.answers[j] == es[j - 1].answer
      {
        if j < n {
          assert j in p0.answers && p0.answers[j] == before[j - 1].answer;
          assert p.answers[j] == p0.answers[j];
        }
      }
    }
  }
}

=== FILE: scanner.dfy ===
/**
 * The section-tracking loop of the content parser's fallback, over lines
 * that have already been classified: a header line switches the section in
 * force, and any other line contributes what it yields in that section.
 *
 * Keeping the loop apart from the string handling lets its properties be
 * stated for every classification at once; `GenerateContent.Classify` is the
 * classification the endpoint uses.
 */
module Scanner {
  import opened Wrappers

  /** Where the loop is: before any header, after a hooks header, after a script header. */
  datatype Section = Preamble | Hooks | Script

  /** What the loop collects, and the content recovered from a reply that is not JSON: hooks in order and the script text. */
  datatype Harvest = Harvest(hooks: seq<string>, script: string)

  const Nothing: Harvest := Harvest([], "")

  function Combine(a: Harvest, b: Harvest): Harvest {
    Harvest(a.hooks + b.hooks, a.script + b.script)
  }

  /** A hook is usable when it is not empty and holds no brace. */
  predicate UsableHook(h: string) {
    h != "" && '{' !in h && '}' !in h
  }

  /**
   * A line as the loop sees it: a header that opens a section, or a plain
   * line together with what it would add in the hooks section and in the
   * script section.
   */
  datatype Line = Header(opens: Section) | Plain(asHook: Harvest, asScript: Harvest)

  /**
   * What the classification of a line guarantees: a header opens the hooks
   * or the script section; a plain line adds at most one usable hook in the
   * hooks section and only brace-free, newline-terminated text in the script
   * section.
   */
  predicate Sound(k: Line) {
    match k
    case Header(opens) => opens != Preamble
    case Plain(h, s) =>
      && h.script == "" && |h.hooks| <= 1 && (forall x :: x in h.hooks ==> UsableHook(x))
      && s.hooks == [] && '{' !in s.script && '}' !in s.script
      && (s.script == "" || s.script[|s.script| - 1] == '\n')
  }

  /** The section in force after reading `k` in section `sec`. */
  function Enter(sec: Section, k: Line): Section {
    if k.Header? then k.opens else sec
  }

  /** What line `k` adds while `sec` is in force: nothing for a header or in the preamble. */
  function Yield(k: Line, sec: Section): Harvest {
    match k
    case Header(_) => Nothing
    case Plain(h, s) =>
      match sec
      case Preamble => Nothing
      case Hooks => h
      case Script => s
  }

  /** The loop over the lines, starting in section `sec`. */
  function Scan(ks: seq<Line>, sec: Section): Harvest
    decreases |ks|
  {
    if |ks| == 0 then Nothing
    else Combine(Yield(ks[0], sec), Scan(ks[1..], Enter(sec, ks[0])))
  }

  lemma CombineUnit(x: Harvest)
    ensures Combine(Nothing, x) == x && Combine(x, Nothing) == x
  {
  }

  lemma CombineAssoc(x: Harvest, y: Harvest, z: Harvest)
    ensures Combine(Combine(x, y), z) == Combine(x, Combine(y, z))
  {
  }

  lemma CombineEmpty(x: Harvest, y: Harvest)
    ensures Combine(x, y) == Nothing <==> x == Nothing && y == Nothing
  {
    if Combine(x, y) == Nothing {
      assert |x.hooks + y.hooks| == 0 && |x.script + y.script| == 0;
    }
  }

  /**
   * Over soundly classified lines, every hook the loop collects is usable,
   * and its script is brace-free and ends with a newline.
   */
  lemma {:induction false} ScanOutput(ks: seq<Line>, sec: Section)
    requires forall i :: 0 <= i < |ks| ==> Sound(ks[i])
    ensures var r := Scan(ks, sec);
      && (forall h :: h in r.hooks ==> UsableHook(h))
      && '{' !in r.script && '}' !in r.script
      && (r.script == "" || r.script[|r.script| - 1] == '\n')
    decreases |ks|
  {
    if |ks| > 0 {
      var rest := Scan(ks[1..], Enter(sec, ks[0]));
      assert forall i :: 0 <= i < |ks| - 1 ==> ks[1..][i] == ks[i + 1];
      ScanOutput(ks[1..], Enter(sec, ks[0]));
      var y := Yield(ks[0], sec);
      assert Sound(ks[0]);
      var r := Combine(y, rest);
      assert Scan(ks, sec) == r;
      assert rest.script != "" ==> r.script[|r.script| - 1] == rest.script[|rest.script| - 1];
    }
  }

  /** The section the loop is in after reading `ks` from `sec`. */
  function After(ks: seq<Line>, sec: Section): Section
    decreases |ks|
  {
    if |ks| == 0 then sec else After(ks[1..], Enter(sec, ks[0]))
  }

  /** The position of the nearest header above position `i`, if any. */
  function LastHeader(ks: seq<Line>, i: int): (r: Option<nat>)
    requires 0 <= i <= |ks|
    ensures r.Some? ==>
      && r.value < i && ks[r.value].Header?
      && forall j :: r.value < j < i ==> !ks[j].Header?
    ensures r.None? ==> forall j :: 0 <= j < i ==> !ks[j].Header?
    decreases i
  {
    if i == 0 then None
    else if ks[i - 1].Header? then Some(i - 1)
    else LastHeader(ks, i - 1)
  }

  /** The section line `i` belongs to: the one the nearest header above it opens, or `start`. */
  function SectionAt(ks: seq<Line>, i: int, start: Section): Section
    requires 0 <= i <= |ks|
  {
    match LastHeader(ks, i)
    case None => start
    case Some(h) => ks[h].opens
  }

  /** The yields of the first `n` lines, each in the section it belongs to, in input order. */
  function Yields(ks: seq<Line>, start: Section, n: int): (ys: seq<Harvest>)
    requires 0 <= n <= |ks|
    ensures |ys| == n
    decreases n
  {
    if n == 0 then [] else Yields(ks, start, n - 1) + [Yield(ks[n - 1], SectionAt(ks, n - 1, start))]
  }

  /** Harvests joined in order. */
  function Concat(ys: seq<Harvest>): Harvest
    decreases |ys|
  {
    if |ys| == 0 then Nothing else Combine(Concat(ys[..|ys| - 1]), ys[|ys| - 1])
  }

  lemma {:induction false} AfterSnoc(a: seq<Line>, k: Line, sec: Section)
    ensures After(a + [k], sec) == Enter(After(a, sec), k)
    decreases |a|
  {
    if |a| > 0 {
      assert (a + [k])[1..] == a[1..] + [k];
      AfterSnoc(a[1..], k, Enter(sec, a[0]));
    }
  }

  /** Reading one more line adds that line's yield in the section the loop had reached. */
  lemma {:induction false} ScanSnoc(a: seq<Line>, k: Line, sec: Section)
    ensures Scan(a + [k], sec) == Combine(Scan(a, sec), Yield(k, After(a, sec)))
    decreases |a|
  {
    if |a| == 0 {
      assert a + [k] == [k];
      assert [k][1..] == [];
      CombineUnit(Yield(k, sec));
    } else {
      var next := Enter(sec, a[0]);
      assert (a + [k])[0] == a[0];
      assert (a + [k])[1..] == a[1..] + [k];
      ScanSnoc(a[1..], k, next);
      CombineAssoc(Yield(a[0], sec), Scan(a[1..], next), Yield(k, After(a[1..], next)));
    }
  }

  /** The loop's running section is the section of the nearest header above. */
  lemma {:induction false} AfterIsSectionAt(ks: seq<Line>, i: int, start: Section)
    requires 0 <= i <= |ks|
    ensures After(ks[..i], start) == SectionAt(ks, i, start)
    decreases i
  {
    if i > 0 {
      assert ks[..i] == ks[..i - 1] + [ks[i - 1]];
      AfterSnoc(ks[..i - 1], ks[i - 1], start);
      AfterIsSectionAt(ks, i - 1, start);
    }
  }

  lemma {:induction false} ScanPrefix(ks: seq<Line>, start: Section, n: int)
    requires 0 <= n <= |ks|
    ensures Scan(ks[..n], start) == Concat(Yields(ks, start, n))
    decreases n
  {
    if n > 0 {
      var ys := Yields(ks, start, n);
      assert ks[..n] == ks[..n - 1] + [ks[n - 1]];
      assert ys[..n - 1] == Yields(ks, start, n - 1);
      ScanSnoc(ks[..n - 1], ks[n - 1], start);
      AfterIsSectionAt(ks, n - 1, start);
      ScanPrefix(ks, start, n - 1);
    } else {
      assert ks[..0] == [];
    }
  }

  /**
   * The loop collects exactly each line's yield in the section of the
   * nearest header above it (or the starting section), in input order.
   */
  lemma {:induction false} ScanMatchesReference(ks: seq<Line>, start: Section)
    ensures Scan(ks, start) == Concat(Yields(ks, start, |ks|))
  {
    ScanPrefix(ks, start, |ks|);
    assert ks[..|ks|] == ks;
  }

  /** Joined harvests are empty exactly when each of them is. */
  lemma {:induction false} ConcatEmpty(ys: seq<Harvest>)
    ensures Concat(ys) == Nothing <==> forall i :: 0 <= i < |ys| ==> ys[i] == Nothing
    decreases |ys|
  {
    if |ys| > 0 {
      var pre := ys[..|ys| - 1];
      ConcatEmpty(pre);
      CombineEmpty(Concat(pre), ys[|ys| - 1]);
      assert forall i :: 0 <= i < |pre| ==> pre[i] == ys[i];
    }
  }

  /** Line `i` yields nothing in the section it belongs to. */
  predicate Silent(ks: seq<Line>, start: Section, i: int)
    requires 0 <= i < |ks|
  {
    Yields(ks, start, |ks|)[i] == Nothing
  }

  /** Some line yields a hook or script text in the section it belongs to. */
  predicate Productive(ks: seq<Line>) {
    exists i :: 0 <= i < |ks| && !Silent(ks, Preamble, i)
  }

  /** The loop collects nothing exactly when no line yields anything. */
  lemma HarvestEmpty(ks: seq<Line>, start: Section)
    ensures Scan(ks, start) == Nothing <==> forall i :: 0 <= i < |ks| ==> Silent(ks, start, i)
  {
    var ys := Yields(ks, start, |ks|);
    ScanMatchesReference(ks, start);
    ConcatEmpty(ys);
    assert forall i :: 0 <= i < |ks| ==> (Silent(ks, start, i) <==> ys[i] == Nothing);
  }

  /** Lines before the first header contribute nothing: both section flags start off. */
  lemma {:induction false} PreambleIgnored(pre: seq<Line>, rest: seq<Line>)
    requires forall i :: 0 <= i < |pre| ==> pre[i].Plain?
    ensures Scan(pre + rest, Preamble) == Scan(rest, Preamble)
    decreases |pre|
  {
    if |pre| > 0 {
      assert (pre + rest)[0] == pre[0];
      assert (pre + rest)[1..] == pre[1..] + rest;
      assert Scan(pre + rest, Preamble) == Combine(Nothing, Scan(pre[1..] + rest, Preamble));
      PreambleIgnored(pre[1..], rest);
      CombineUnit(Scan(pre[1..] + rest, Preamble));
    } else {
      assert pre + rest == rest;
    }
  }

  /**
   * The end of the loop: the content when some hook or some script text was
   * collected, `None` (the thrown "could not extract") otherwise.
   */
  function Collect(ks: seq<Line>): (r: Option<Harvest>)
    requires forall i :: 0 <= i < |ks| ==> Sound(ks[i])
    ensures r.Some? <==> Productive(ks)
    ensures r.Some? ==> r.value.hooks != [] || r.value.script != ""
    ensures r.Some? ==> forall h :: h in r.value.hooks ==> UsableHook(h)
    ensures r.Some? ==> r.value == Concat(Yields(ks, Preamble, |ks|))
  {
    var found := Scan(ks, Preamble);
    ScanOutput(ks, Preamble);
    ScanMatchesReference(ks, Preamble);
    HarvestEmpty(ks, Preamble);
    assert found == Nothing <==> !(|found.hooks| > 0 || found.script != "");
    if |found.hooks| > 0 || found.script != "" then Some(found) else None
  }
}

=== FILE: text.dfy ===
/**
 * The JavaScript string operations the content parser relies on:
 * `includes`, `trim`, `split` on one character, and the character runs the
 * parser's anchored patterns strip. A `char` here is a Unicode scalar value
 * where JavaScript has UTF-16 code units; every character the parser looks
 * for lies in the Basic Multilingual Plane, so the two views agree on it,
 * and lone surrogates cannot be represented.
 */
module Text {

  /** JavaScript's white space and line terminators: what `trim` and `\s` remove. */
  predicate IsSpace(c: char) {
    || c == '\t' || c == '\n' || c == '\U{000B}' || c == '\U{000C}' || c == '\r' || c == ' '
    || c == '\U{00A0}' || c == '\U{1680}' || ('\U{2000}' <= c <= '\U{200A}')
    || c == '\U{2028}' || c == '\U{2029}' || c == '\U{202F}' || c == '\U{205F}'
    || c == '\U{3000}' || c == '\U{FEFF}'
  }

  /** The characters of the leading numbering the hook cleaner strips: `[0-9\-\.\"\:\}]`. */
  predicate IsNumbering(c: char) {
    ('0' <= c <= '9') || c == '-' || c == '.' || c == '"' || c == ':' || c == '}'
  }

  /** The characters of the trailing run the hook cleaner strips: `[\"\,]`. */
  predicate IsQuoteOrComma(c: char) {
    c == '"' || c == ','
  }

  /** The character classes the parser's patterns anchor on. */
  datatype CharClass = Space | Numbering | QuoteOrComma

  predicate Matches(k: CharClass, c: char) {
    match k
    case Space => IsSpace(c)
    case Numbering => IsNumbering(c)
    case QuoteOrComma => IsQuoteOrComma(c)
  }

  /** `s.includes(t)`: `t` occurs in `s` at some position. */
  predicate Contains(s: string, t: string)
    decreases |s|
  {
    t <= s || (|s| > 0 && Contains(s[1..], t))
  }

  /** `t` is the slice of `s` that starts at position `i`. */
  predicate SliceAt(s: string, t: string, i: int) {
    0 <= i && i + |t| <= |s| && s[i..i + |t|] == t
  }

  /** `Contains` agrees with "`t` is the slice of `s` at some position". */
  lemma {:induction false} ContainsSlice(s: string, t: string)
    ensures Contains(s, t) <==> exists i :: SliceAt(s, t, i)
    decreases |s|
  {
    if t <= s {
      assert SliceAt(s, t, 0);
    } else if |s| > 0 {
      ContainsSlice(s[1..], t);
      if Contains(s[1..], t) {
        var i :| SliceAt(s[1..], t, i);
        assert s[i + 1..i + 1 + |t|] == s[1..][i..i + |t|];
        assert SliceAt(s, t, i + 1);
      } else {
        forall i | 0 <= i
          ensures !SliceAt(s, t, i)
        {
          if 0 < i && i + |t| <= |s| {
            assert s[i..i + |t|] == s[1..][i - 1..i - 1 + |t|];
            assert !SliceAt(s[1..], t, i - 1);
          } else if i == 0 && |t| <= |s| {
            assert s[0..|t|] == s[..|t|];
          }
        }
      }
    }
  }

  /** The end of the run of class-`k` characters that starts at position `i`. */
  function RunEnd(s: string, k: CharClass, i: nat): (j: nat)
    requires i <= |s|
    ensures i <= j <= |s|
    ensures forall m :: i <= m < j ==> Matches(k, s[m])
    ensures j < |s| ==> !Matches(k, s[j])
    decreases |s| - i
  {
    if i < |s| && Matches(k, s[i]) then RunEnd(s, k, i + 1) else i
  }

  /** The start of the run of class-`k` characters that ends at position `j`, looking no further back than `lo`. */
  function RunStart(s: string, k: CharClass, lo: nat, j: nat): (i: nat)
    requires lo <= j <= |s|
    ensures lo <= i <= j
    ensures forall m :: i <= m < j ==> Matches(k, s[m])
    ensures i > lo ==> !Matches(k, s[i - 1])
    decreases j
  {
    if j > lo && Matches(k, s[j - 1]) then RunStart(s, k, lo, j - 1) else j
  }

  /** `r` is the slice of `s` at position `i`, with only white space before and after it. */
  predicate PaddedSlice(s: string, r: string, i: int) {
    && SliceAt(s, r, i)
    && (forall m :: 0 <= m < i ==> Matches(Space, s[m]))
    && (forall m :: i + |r| <= m < |s| ==> Matches(Space, s[m]))
  }

  /**
   * `s.trim()`: the slice of `s` between its leading and its trailing white
   * space; neither end of the result is white space.
   */
  function Trim(s: string): (r: string)
    ensures PaddedSlice(s, r, RunEnd(s, Space, 0))
    ensures |r| == 0 || (!Matches(Space, r[0]) && !Matches(Space, r[|r| - 1]))
  {
    var i := RunEnd(s, Space, 0);
    var j := RunStart(s, Space, i, |s|);
    s[i..j]
  }

  /** Trimming twice is trimming once. */
  lemma TrimIdempotent(s: string)
    ensures Trim(Trim(s)) == Trim(s)
  {
    var r := Trim(s);
    if |r| > 0 {
      assert RunEnd(r, Space, 0) == 0;
      assert RunStart(r, Space, 0, |r|) == |r|;
    }
  }

  /** Position of the first `c` in `s`. */
  function IndexOf(s: string, c: char): (r: nat)
    requires c in s
    ensures r < |s| && s[r] == c && c !in s[..r]
  {
    if s[0] == c then 0 else 1 + IndexOf(s[1..], c)
  }

  /** Position of the last `c` in `s`. */
  function LastIndexOf(s: string, c: char): (r: nat)
    requires c in s
    ensures r < |s| && s[r] == c && c !in s[r + 1..]
  {
    if s[|s| - 1] == c then |s| - 1 else LastIndexOf(s[..|s| - 1], c)
  }

  /** `s.split(sep)`: the maximal pieces between separators, at least one. */
  function Split(s: string, sep: char): (parts: seq<string>)
    ensures |parts| >= 1
    ensures forall i :: 0 <= i < |parts| ==> sep !in parts[i]
    ensures Join(parts, sep) == s
    decreases |s|
  {
    if sep !in s then [s]
    else
      var i := IndexOf(s, sep);
      assert s == s[..i] + [sep] + s[i + 1..];
      [s[..i]] + Split(s[i + 1..], sep)
  }

  /** `parts.join(sep)`. */
  function Join(parts: seq<string>, sep: char): string
    requires |parts| >= 1
    decreases |parts|
  {
    if |parts| == 1 then parts[0] else parts[0] + [sep] + Join(parts[1..], sep)
  }

  /** Splitting a join recovers the pieces when none contains the separator. */
  lemma {:induction false} SplitJoin(parts: seq<string>, sep: char)
    requires |parts| >= 1
    requires forall i :: 0 <= i < |parts| ==> sep !in parts[i]
    ensures Split(Join(parts, sep), sep) == parts
    decreases |parts|
  {
    if |parts| > 1 {
      var s := Join(parts, sep);
      var rest := Join(parts[1..], sep);
      assert s == parts[0] + [sep] + rest;
      assert s[|parts[0]|] == sep;
      assert s[..|parts[0]|] == parts[0];
      assert IndexOf(s, sep) == |parts[0]|;
      assert s[|parts[0]| + 1..] == rest;
      SplitJoin(parts[1..], sep);
    }
  }
}

=== FILE: wrappers.dfy ===
/** The optional value used for JavaScript's `null`/`undefined` and for absent storage. */
module Wrappers {

  datatype Option<+T> = None | Some(value: T) {

    /** Returns the wrapped value, or `default` when there is none. */
    function GetOr(default: T): T {
      match this
      case Some(v) => v
      case None => default
    }
  }
}
